=== FILE: README.md ===
# Notification routing engine — a Dafny model

This project models the core of the Grimity notification consumer. That core is the logic that turns one activity event taken from a queue into zero, one or (in the legacy comment handler) two notification records. It covers:

- **`Types`** (src/types.ts): the closed `Event` union and the `SubscriptionType` vocabulary.
- **`Store`**: the relational store as an immutable snapshot.
  - It holds finite maps of users, feeds, posts, feed comments and post comments.
  - It also records which point queries raise and whether inserts raise.
  - Each handler returns a `Run`: the queries it issued, in order, the records it wrote, and whether it completed or threw.
- **`EventHandler`** (src/handler/event.handler.ts): the eight current handlers. Each one:
  - resolves a recipient;
  - applies self-suppression and, for gated kinds, the subscription gate;
  - only then looks up the actor;
  - inserts at most one notification with a structured `data` payload.

  Each handler's contract compares it with a reference predicate stated directly on the snapshot (`FeedCommentNotifies`, `MentionNotifies`, …). The reference predicates spell out the recipient test (present, not the actor, and, for gated kinds, subscribed) without the `RecipientAccepts` helper the handler bodies use.
- **`Dispatcher`** (src/index.ts): the queue entry point.
  - It reads only the first record and parses its body before the `try`.
  - It selects one handler by string tag.
  - It swallows whatever the handler raises.
- **`LikeHandler`, `FollowHandler`, `CommentHandler`**: the legacy handlers.
  - Like and follow build flat records and encode them as key-value attribute maps (`DynamoItem`: string/number/boolean attributes, decimal number strings, the 30-day `expiresAt`).
  - Comment fans out to the feed author and the parent comment's writer.
- **`Util`** (src/util.ts): the image-URL and link builders.

Nondeterminism and foreign code become parameters:
- `uuid()` is the `id` argument (two of them, `firstId`/`secondId`, for the comment handler, which may insert twice).
- `Date.now()` is `createdAt`/`expiryClock`. The legacy handlers read the clock twice.
- `JSON.parse` is the `parse: string -> Option<Json>` argument. `None` means it throws.
- The key-value store's put failure is `putFails`.

## Where the source disagrees with itself

- **Reply tags.**
  - The entry point (src/index.ts:21,27) and the reply handlers (src/handler/event.handler.ts:121,242) use `FEED_REPLY`/`POST_REPLY`.
  - The event union (src/types.ts:19-24,39-44) and the subscription vocabulary (src/types.ts:63-69) spell these `FEED_ANSWER`/`POST_ANSWER`.
  - `FEED_ANSWER`/`POST_ANSWER` bodies select no handler (`Dispatcher.RouteSelectsExactlyOne`).
  - The reply gates test `FEED_REPLY`/`POST_REPLY`, which the vocabulary does not contain. So a parent writer whose subscription list stays inside the vocabulary is never notified of a reply (`EventHandler.ReplyGateClosedForVocabulary`).
  - The model decodes a `FEED_REPLY` body into the union's `FeedAnswerEvent` shape (feedId, actorId, parentId).
- **Errors before the `try` escape.** `JSON.parse` runs at src/index.ts:12, before the `try` of line 14. A malformed body therefore raises out of the entry point. So does an empty delivery, through `Records[0]` at line 11. Errors inside the handlers are caught at lines 33-36.
- **FOLLOW has no self check** at src/handler/event.handler.ts:17-24, while every other actor-bearing handler compares recipient and actor (`EventHandler.FollowHasNoSelfCheck`).
- **Two comment policies coexist.** The current handlers route comments and replies as separate event kinds, each with one recipient (src/handler/event.handler.ts:69-149). The legacy handler (src/handler/comment.handler.ts:24-62) notifies both the feed author and the parent writer and does not deduplicate them (`CommentHandler.AuthorWhoWroteParentIsNotifiedTwice`). Both are modelled, each as written.

## Model

| member | source | states |
|---|---|---|
| Types.TagsAreClosedAndDistinct | src/types.ts:53-61 | every event's `type` is one of exactly eight distinct strings, and equal tags mean the same variant |
| Types.Actor | src/types.ts:1-17 | the like event alone names no actor; every other variant's actor is its `actorId` |
| Types.Parent | src/types.ts:19-44 | exactly the two answer variants carry a parent id |
| Types.Mentioned | src/types.ts:26-51 | exactly the two mention variants carry a mentioned user |
| Types.SubscriptionVocabulary | src/types.ts:63-69 | six distinct flags, with no mention kind and no `*_REPLY` spelling among them |
| Store.FeedAuthor | src/handler/event.handler.ts:44-49 | the feed/author inner join finds a row iff the feed exists and its author's user row exists |
| Store.PostAuthor | src/handler/event.handler.ts:191-196 | the post/author inner join finds a row iff the post exists and its author's user row exists |
| Store.FeedCommentWriter | src/handler/event.handler.ts:111-116 | the parent-comment/writer join finds a row iff the comment and its writer's user row exist |
| Store.PostCommentWriter | src/handler/event.handler.ts:232-237 | the same, for post comments |
| EventHandler.ActorRow | src/handler/event.handler.ts:84-88 | the actor snapshot's id is the event's actorId |
| EventHandler.WithActor | src/handler/event.handler.ts:84-107 | the actor query comes last; one notification is inserted iff the actor row exists and neither the query nor the insert fails |
| EventHandler.Gated | src/handler/event.handler.ts:77-90 | the actor is looked up iff the recipient query succeeded and its row passes self-suppression and the gate; otherwise the run stops after one query with no write |
| EventHandler.HandleFollow | src/handler/event.handler.ts:17-41 | one notification to `userId` carrying the actor row, iff the actor exists; no self check and no gate |
| EventHandler.HandleFeedLike | src/handler/event.handler.ts:43-67 | one notification to the feed author iff the feed, its author and the FEED_LIKE flag exist; the payload carries the event's feedId and likeCount and the feed's thumbnail and title |
| EventHandler.HandleFeedComment | src/handler/event.handler.ts:69-108 | nothing if the feed is missing, the author is the actor, FEED_COMMENT is unset or the actor is missing; otherwise one notification to the author; the actor is read only after the author passes |
| EventHandler.HandleFeedReply | src/handler/event.handler.ts:110-149 | the recipient is the writer of comment `parentId`, gated by FEED_REPLY and self-suppression |
| EventHandler.HandleFeedMention | src/handler/event.handler.ts:151-188 | the mentioned user is notified unless missing or the actor; no gate |
| EventHandler.HandlePostComment | src/handler/event.handler.ts:190-229 | as for feed comments, with the post author and POST_COMMENT |
| EventHandler.HandlePostReply | src/handler/event.handler.ts:231-270 | the recipient is the writer of post comment `parentId`, gated by POST_REPLY |
| EventHandler.HandlePostMention | src/handler/event.handler.ts:272-309 | as for feed mentions, with a post payload |
| EventHandler.MentionIgnoresSubscription | src/handler/event.handler.ts:156-162 | changing the mentioned user's subscription list changes nothing in either mention handler's run |
| EventHandler.ReplyIgnoresContentAuthor | src/handler/event.handler.ts:110-149 | the reply handlers' runs do not depend on the feeds or posts, so the content author is never the chosen recipient |
| EventHandler.ReplyGateClosedForVocabulary | src/handler/event.handler.ts:118-123 | a feed-comment writer whose subscriptions stay in the declared vocabulary never receives FEED_REPLY |
| EventHandler.PostReplyGateClosedForVocabulary | src/handler/event.handler.ts:239-244 | the same for POST_REPLY |
| EventHandler.FollowHasNoSelfCheck | src/handler/event.handler.ts:17-24 | a user following themself is notified |
| Dispatcher.Route | src/index.ts:15-31 | a tag selects a handler iff it is one of the eight routed strings, and the selected handler's tag is that string |
| Dispatcher.RouteSelectsExactlyOne | src/index.ts:15-31 | each handler has exactly one tag selecting it; FEED_ANSWER and POST_ANSWER select none |
| Dispatcher.Argument | src/index.ts:12-30 | an argument is decoded iff every field the selected handler destructures is present with its type; the decoded event is of that handler's shape and each of its fields is the body field of the same name |
| Dispatcher.Handle | src/index.ts:15-31 | any handler writes at most one notification, whose `data.type` is the handler's own tag, and none when it throws |
| Dispatcher.TryBlock | src/index.ts:14-36 | at most one write, and a written notification's type equals the body's `type` string |
| Dispatcher.Handler | src/index.ts:10-37 | the invocation raises iff there is no first record or its body does not parse; otherwise it returns with at most one write of the body's type |
| Dispatcher.OnlyFirstRecordRead | src/index.ts:11 | two deliveries with the same first record behave identically |
| Dispatcher.HandlerErrorsAreSwallowed | src/index.ts:33-36 | once the body parses, the invocation returns normally with the writes made, even for a `null` body |
| Dispatcher.UnroutedBodiesWriteNothing | src/index.ts:15-32 | an object without a routed string tag runs no handler and writes nothing |
| Dispatcher.RoutedTagRunsItsHandler | src/index.ts:15-31 | a routed tag with well-formed fields runs exactly the handler of that tag |
| Dispatcher.RecipientQueryKeyedByEvent | src/handler/event.handler.ts:110-116 | a reply's first query is keyed by its parent comment, a mention's by the mentioned user, and a follow's only query by the actor |
| Dispatcher.NoSelfNotification | src/handler/event.handler.ts:77-82 | apart from FOLLOW, no handler ever notifies the event's actor |
| Dispatcher.FeedLikeExample | src/handler/event.handler.ts:43-67 | a FEED_LIKE of f1 with count 5 and a subscribed author gives one notification to that author with f1 and 5 |
| Dispatcher.FollowExample | src/handler/event.handler.ts:17-41 | u1 following u2 notifies u2 iff u1 exists |
| Dispatcher.OwnPostCommentExample | src/handler/event.handler.ts:198-203 | commenting on one's own post writes nothing |
| Util.ImageUrl | src/util.ts:6-8 | a null or empty image has no URL; otherwise the URL maps back to the image path |
| Util.ImagePath | src/util.ts:7 | a recovered path is non-empty and rebuilds the URL under the image host |
| Util.ProfileLink | src/util.ts:10-12 | the link is the service prefix, a slash, then the profile url |
| Util.FeedLink | src/util.ts:14-16 | the link is the service prefix, a slash, then `feeds/` and the id |
| Util.PostLink | src/util.ts:18-20 | the link is the service prefix, a slash, then `posts/` and the id |
| Util.LinksAreInjective | src/util.ts:14-20 | feed links, and post links, are equal iff their ids are |
| Util.FeedAndPostLinksDiffer | src/util.ts:14-20 | no feed link equals any post link |
| Util.ProfileLinkCanShadowFeedLink | src/util.ts:10-16 | the profile url `feeds/<id>` gives exactly the feed link of `<id>` |
| DynamoItem.ExpiresAt | src/handler/like.handler.ts:35 | expiry is floor(clock ms / 1000) plus 2,592,000 seconds |
| DynamoItem.NumberString | src/handler/like.handler.ts:42 | a number attribute is a non-empty digit string with no leading zero (it starts with '0' only when it is exactly "0") |
| DynamoItem.NumberStringRoundTrip | src/handler/like.handler.ts:42-49 | parsing the decimal string of n gives n back |
| LikeHandler.Encode | src/handler/like.handler.ts:38-51 | the item has exactly the nine record keys |
| LikeHandler.RoundTrip | src/handler/like.handler.ts:38-51 | decoding an encoded like record recovers every field |
| LikeHandler.NotifyKeyed | src/handler/like.handler.ts:11-36 | both lookups come first; one item iff the feed exists, its author is not the actor, the actor row exists and nothing fails; the item put is exactly the nine-key encoding of the record holding the author, the actor, isRead false, both clock values and the event's feedId, and it decodes back to that record; the run throws iff a lookup fails or the put fails after the guards pass, while a missing row returns normally |
| LikeHandler.Notify | src/handler/like.handler.ts:10-54 | the same, with the feed and actor rows taken from the literal keys "feedId" and "actorId" |
| LikeHandler.NotifyIntended | src/handler/like.handler.ts:10-54 | the same, keyed by the event's feedId and actorId |
| LikeHandler.LikedFeedIsIgnored | src/handler/like.handler.ts:11-15 | as written, which feed was liked changes neither whether nor to whom a notification is written |
| LikeHandler.LiteralKeysMissTheLike | src/handler/like.handler.ts:11-23 | a concrete like of an existing feed by an existing user: written, nothing; intended, one notification |
| FollowHandler.Encode | src/handler/follow.handler.ts:30-42 | the item has exactly the eight record keys and no feedId |
| FollowHandler.RoundTrip | src/handler/follow.handler.ts:30-42 | decoding an encoded follow record recovers every field |
| FollowHandler.Notify | src/handler/follow.handler.ts:10-45 | one item iff the actor row exists and nothing fails; the item put is exactly the eight-key encoding, with no feedId, of the record holding recipient userId, the event's actorId, the actor's name, isRead false and the 30-day expiry, and it decodes back to that record; the run throws iff the actor lookup fails or the put fails after the row is found, while a missing actor returns normally |
| CommentHandler.Notify | src/handler/comment.handler.ts:8-65 | nothing without the actor and feed rows; without a truthy parent id, at most one write; whatever fails, the rows written are a prefix of the reference recipients (the author unless they are the actor, then the existing parent's writer unless they are the actor), so the author's row, once inserted, survives a later failure of the parent lookup or second insert; that row is written whenever the actor and feed queries succeed, inserts are accepted and the author is not the actor; when every query the run reaches succeeds and inserts are accepted, the run completes with exactly the reference recipients; every row is COMMENT with the event's feedId, actorId and the actor's name, never addressed to the actor |
| CommentHandler.FanOutPolicy | src/handler/comment.handler.ts:21-62 | with both rows present and nothing failing, the author gets the first row iff they are not the actor, and a reply adds a row for the parent writer iff the parent exists and its writer is not the actor |
| CommentHandler.AuthorWhoWroteParentIsNotifiedTwice | src/handler/comment.handler.ts:24-62 | when the parent's writer is the feed author and not the actor, that user gets two rows with the two fresh ids |

## Findings

| source | as written | input that shows it | evidently intended | confidence | as-written member | corrected member |
|---|---|---|---|---|---|---|
| src/handler/like.handler.ts:11-21 | the feed and actor rows are selected `where id = 'feedId'` and `where id = 'actorId'`, the literal strings | users u1, u2, feed f1 by u2, event LikeEvent(u1, f1): no notification, because no feed is keyed "feedId" | select by the event's `feedId` and `actorId`, so that f1's author u2 is notified with u1's name | high; not executed | LikeHandler.Notify, LikeHandler.LiteralKeysMissTheLike | LikeHandler.NotifyIntended |

## Left out

- Query building, SQL joins and `execute()`. Each query is a lookup in the snapshot's maps. A primary-key lookup returns at most one row, so taking the first row is not modelled separately.
- The store client itself and what makes a query or an insert fail. Failure is an input (`failing`, `rejectsWrites`, `putFails`).
- `JSON.parse` internals. Parsing is the `parse` argument, and JSON numbers are integers only, so a fractional `likeCount` is not modelled.
- Dispatcher.Argument: a selected handler whose destructured fields are missing or of another JSON type is modelled as raising inside the `try`, so it writes nothing. For lookup keys, what the query builder and the database would do with such a value is not modelled. For fields that are only copied into the payload, the source still reaches the insert and the model does not: a missing, fractional or non-numeric `likeCount` (src/handler/event.handler.ts:43, 59-61), a missing or non-string `feedId` (for example `null` or a number) on FEED_REPLY/FEED_MENTION (:140, :179), a missing or non-string `postId` on POST_REPLY/POST_MENTION (:261, :300), and a non-string FOLLOW `userId` (:30), which is the recipient column of the insert rather than a lookup key. Modelling those would need payload fields that may be absent or of any JSON type.
- `uuid()` and `Date.now()`. They are parameters, so uniqueness of ids is not modelled.
- Logging (`console.error`), `dotenv`, and the process-wide store singletons.
- Queue delivery semantics: redelivery, duplicates and concurrent invocations. An invocation is one pure function call.
- Column defaults of the current `Notification` table (such as a creation time). The handlers do not set them.
- src/db/types.ts. It is a stale generated schema and served only as a hint for field names.
- The legacy handlers' event types `LikeEvent` and `CommentEvent`. src/types.ts does not declare them, so they are defined where they are used. The legacy handlers are not reachable from the entry point, in the source as in the model.

=== FILE: comment_handler.dfy ===
/** The legacy comment handler of src/handler/comment.handler.ts: one event
    kind for comments and replies, fanning out to the feed's author and, for a
    reply, separately to the parent comment's writer, with no deduplication
    between the two. */
module CommentHandler {
  import opened Wrappers
  import opened Store

  /** The event the handler destructures (not declared by src/types.ts). */
  datatype CommentEvent = CommentEvent(actorId: string, feedId: string, parentCommentId: Option<string>)

  /** A row of the relational `Notification` table in its legacy shape. */
  datatype CommentRow = CommentRow(id: string, userId: string, kind: string,
                                   actorId: string, actorName: string, feedId: string)

  const CommentType: string := "COMMENT"

  /** JavaScript truthiness of an optional string: absent and "" are falsy. */
  predicate Truthy(s: Option<string>)
  {
    s.Some? && s.value != ""
  }

  /** Reference definition: the users to notify, in order, when nothing
      fails: the feed's author unless they are the actor, then, for a reply
      whose parent comment exists, its writer unless they are the actor. */
  function Recipients(db: Db, e: CommentEvent): seq<string>
  {
    if e.actorId !in db.users || e.feedId !in db.feeds then []
    else
      var author := db.feeds[e.feedId].authorId;
      (if e.actorId != author then [author] else [])
      + (if Truthy(e.parentCommentId) && e.parentCommentId.value in db.feedComments
            && db.feedComments[e.parentCommentId.value].writerId != e.actorId
         then [db.feedComments[e.parentCommentId.value].writerId] else [])
  }

  predicate Healthy(db: Db)
  {
    db.failing == {} && !db.rejectsWrites
  }

  function RecipientsOf(rows: seq<CommentRow>): (r: seq<string>)
    ensures |r| == |rows|
    ensures forall i :: 0 <= i < |rows| ==> r[i] == rows[i].userId
  {
    if rows == [] then [] else [rows[0].userId] + RecipientsOf(rows[1..])
  }

  /** The handler. `firstId` and `secondId` are the values of the first and
      second `uuid()` calls, whichever inserts they end up in. */
  function Notify(db: Db, e: CommentEvent, firstId: string, secondId: string): (r: Run<CommentRow>)
    ensures |r.writes| <= 2
    ensures e.actorId !in db.users || e.feedId !in db.feeds ==> r.writes == []
    ensures !Truthy(e.parentCommentId) ==> |r.writes| <= 1
    ensures Healthy(db) ==> r.outcome.Completed? && RecipientsOf(r.writes) == Recipients(db, e)
    // Rows already inserted stay inserted when a later step raises: whatever
    // fails, the rows written are a prefix of the reference recipients.
    ensures RecipientsOf(r.writes) <= Recipients(db, e)
    ensures UserById(e.actorId) !in db.failing && FeedById(e.feedId) !in db.failing && !db.rejectsWrites
            && e.actorId in db.users && e.feedId in db.feeds && e.actorId != db.feeds[e.feedId].authorId
            ==> |r.writes| >= 1 && r.writes[0].userId == db.feeds[e.feedId].authorId
    // Only the queries the run actually reaches matter.
    ensures UserById(e.actorId) !in db.failing && FeedById(e.feedId) !in db.failing && !db.rejectsWrites
            && (Truthy(e.parentCommentId) ==> FeedCommentById(e.parentCommentId.value) !in db.failing)
            ==> r.outcome.Completed? && RecipientsOf(r.writes) == Recipients(db, e)
    ensures forall w :: w in r.writes ==>
              && e.actorId in db.users
              && w == CommentRow(w.id, w.userId, CommentType, e.actorId, db.users[e.actorId].name, e.feedId)
    ensures forall w :: w in r.writes ==> w.userId != e.actorId
    ensures |r.writes| >= 1 ==> r.writes[0].id == firstId
    ensures |r.writes| == 2 ==> r.writes[1].id == secondId
  {
    var actorQuery := UserById(e.actorId);
    var feedQuery := FeedById(e.feedId);
    if actorQuery in db.failing then Run([actorQuery], [], Threw)
    else if feedQuery in db.failing then Run([actorQuery, feedQuery], [], Threw)
    else if e.actorId !in db.users || e.feedId !in db.feeds then Run([actorQuery, feedQuery], [], Completed)
    else
      var author := db.feeds[e.feedId].authorId;
      var name := db.users[e.actorId].name;
      var toAuthor := e.actorId != author;
      if toAuthor && db.rejectsWrites then Run([actorQuery, feedQuery], [], Threw)
      else
        var first := if toAuthor then [CommentRow(firstId, author, CommentType, e.actorId, name, e.feedId)] else [];
        if !Truthy(e.parentCommentId) then Run([actorQuery, feedQuery], first, Completed)
        else
          var parentQuery := FeedCommentById(e.parentCommentId.value);
          var queries := [actorQuery, feedQuery, parentQuery];
          if parentQuery in db.failing then Run(queries, first, Threw)
          else if e.parentCommentId.value !in db.feedComments then Run(queries, first, Completed)
          else
            var writer := db.feedComments[e.parentCommentId.value].writerId;
            if e.actorId == writer then Run(queries, first, Completed)
            else if db.rejectsWrites then Run(queries, first, Threw)
            else
              var id := if toAuthor then secondId else firstId;
              Run(queries, first + [CommentRow(id, writer, CommentType, e.actorId, name, e.feedId)], Completed)
  }

  /** No deduplication: when the parent comment's writer is the feed's author
      and not the actor, that user receives two notifications for one reply. */
  lemma AuthorWhoWroteParentIsNotifiedTwice(db: Db, e: CommentEvent, firstId: string, secondId: string)
    requires Healthy(db)
    requires e.actorId in db.users && e.feedId in db.feeds
    requires Truthy(e.parentCommentId) && e.parentCommentId.value in db.feedComments
    requires db.feedComments[e.parentCommentId.value].writerId == db.feeds[e.feedId].authorId != e.actorId
    ensures var r := Notify(db, e, firstId, secondId);
            && |r.writes| == 2
            && r.writes[0].userId == r.writes[1].userId == db.feeds[e.feedId].authorId
            && r.writes[0].id == firstId && r.writes[1].id == secondId
  {
    var r := Notify(db, e, firstId, secondId);
    assert RecipientsOf(r.writes) == Recipients(db, e);
  }

  /** The fan-out policy spelled out: when nothing fails and both rows exist,
      the first row goes to the feed's author iff the author is not the actor,
      and the reply adds one more row iff its parent exists and was written by
      someone other than the actor. */
  lemma FanOutPolicy(db: Db, e: CommentEvent, firstId: string, secondId: string)
    requires Healthy(db) && e.actorId in db.users && e.feedId in db.feeds
    ensures var r := Notify(db, e, firstId, secondId);
            var author := db.feeds[e.feedId].authorId;
            var toParent := Truthy(e.parentCommentId) && e.parentCommentId.value in db.feedComments
                            && db.feedComments[e.parentCommentId.value].writerId != e.actorId;
            && ((|r.writes| >= 1 && r.writes[0].userId == author) <==> e.actorId != author)
            && |r.writes| == (if e.actorId != author then 1 else 0) + (if toParent then 1 else 0)
            && (toParent ==> r.writes[|r.writes| - 1].userId == db.feedComments[e.parentCommentId.value].writerId)
  {
    var r := Notify(db, e, firstId, secondId);
    var rs := RecipientsOf(r.writes);
    assert rs == Recipients(db, e);
    assert forall i :: 0 <= i < |r.writes| ==> r.writes[i].userId == rs[i];
  }
}

=== FILE: dispatcher.dfy ===
/** The queue entry point of src/index.ts: take the first delivered record,
    parse its body, pick the one handler whose tag matches and swallow any
    exception the handler raises. */
module Dispatcher {
  import opened Wrappers
  import opened Store
  import opened Types
  import opened EventHandler

  /** A parsed JSON value (numbers restricted to integers). */
  datatype Json =
    | JNull
    | JBool(b: bool)
    | JNum(n: int)
    | JStr(s: string)
    | JArr(items: seq<Json>)
    | JObj(fields: map<string, Json>)

  /** One record of a queue delivery; only its body is used. */
  datatype QueueRecord = QueueRecord(body: string)

  /** Why an invocation raised instead of returning. */
  datatype Failure = NoFirstRecord | BodyNotJson

  /** How one invocation ended: normally, with the notifications written, or
      with an exception that escapes to the queue transport. */
  datatype Invocation = Returned(writes: seq<Notification>) | Raised(failure: Failure)

  /** The handlers the entry point can select. */
  datatype Kind =
    | FollowKind | FeedLikeKind | FeedCommentKind | FeedReplyKind
    | FeedMentionKind | PostCommentKind | PostReplyKind | PostMentionKind

  /** The discriminant string each handler is selected by. */
  function KindTag(k: Kind): string
  {
    match k
    case FollowKind => "FOLLOW"
    case FeedLikeKind => "FEED_LIKE"
    case FeedCommentKind => "FEED_COMMENT"
    case FeedReplyKind => "FEED_REPLY"
    case FeedMentionKind => "FEED_MENTION"
    case PostCommentKind => "POST_COMMENT"
    case PostReplyKind => "POST_REPLY"
    case PostMentionKind => "POST_MENTION"
  }

  const RoutedTags: set<string> :=
    {"FOLLOW", "FEED_LIKE", "FEED_COMMENT", "FEED_REPLY",
     "FEED_MENTION", "POST_COMMENT", "POST_REPLY", "POST_MENTION"}

  /** The chain of `event.type === ...` tests: the first match wins and no
      match selects nothing. */
  function Route(tag: string): (r: Option<Kind>)
    ensures r.Some? <==> tag in RoutedTags
    ensures r.Some? ==> KindTag(r.value) == tag
  {
    if tag == "FOLLOW" then Some(FollowKind)
    else if tag == "FEED_LIKE" then Some(FeedLikeKind)
    else if tag == "FEED_COMMENT" then Some(FeedCommentKind)
    else if tag == "FEED_REPLY" then Some(FeedReplyKind)
    else if tag == "FEED_MENTION" then Some(FeedMentionKind)
    else if tag == "POST_COMMENT" then Some(PostCommentKind)
    else if tag == "POST_REPLY" then Some(PostReplyKind)
    else if tag == "POST_MENTION" then Some(PostMentionKind)
    else None
  }

  /** Every handler has exactly one tag that selects it, and the legacy
      answer spellings of the event union select none. */
  lemma RouteSelectsExactlyOne(tag: string, k: Kind)
    ensures Route(tag) == Some(k) <==> KindTag(k) == tag
    ensures Route("FEED_ANSWER").None? && Route("POST_ANSWER").None?
  {
  }

  function StringField(fields: map<string, Json>, name: string): (r: Option<string>)
    ensures r.Some? <==> name in fields && fields[name].JStr?
    ensures r.Some? ==> fields[name] == JStr(r.value)
  {
    if name in fields && fields[name].JStr? then Some(fields[name].s) else None
  }

  function IntField(fields: map<string, Json>, name: string): (r: Option<int>)
    ensures r.Some? <==> name in fields && fields[name].JNum?
    ensures r.Some? ==> fields[name] == JNum(r.value)
  {
    if name in fields && fields[name].JNum? then Some(fields[name].n) else None
  }

  /** The string-valued fields each handler destructures. */
  function StringFields(k: Kind): set<string>
  {
    match k
    case FollowKind => {"actorId", "userId"}
    case FeedLikeKind => {"feedId"}
    case FeedCommentKind => {"feedId", "actorId"}
    case FeedReplyKind => {"feedId", "actorId", "parentId"}
    case FeedMentionKind => {"feedId", "actorId", "mentionedUserId"}
    case PostCommentKind => {"postId", "actorId"}
    case PostReplyKind => {"postId", "actorId", "parentId"}
    case PostMentionKind => {"postId", "actorId", "mentionedUserId"}
  }

  /** Every field the handler of `k` destructures is present with the JSON
      type the model gives it: strings, and a number for `likeCount`. */
  predicate WellFormed(k: Kind, f: map<string, Json>)
  {
    && (forall name :: name in StringFields(k) ==> name in f && f[name].JStr?)
    && (k == FeedLikeKind ==> "likeCount" in f && f["likeCount"].JNum?)
  }

  /** Reference definition: each field of the event is the body field of
      the same name. */
  predicate Carries(f: map<string, Json>, e: Event)
  {
    match e
    case FollowEvent(actorId, userId) =>
      f.Keys >= {"actorId", "userId"} && f["actorId"] == JStr(actorId) && f["userId"] == JStr(userId)
    case FeedLikeEvent(feedId, likeCount) =>
      f.Keys >= {"feedId", "likeCount"} && f["feedId"] == JStr(feedId) && f["likeCount"] == JNum(likeCount)
    case FeedCommentEvent(feedId, actorId) =>
      f.Keys >= {"feedId", "actorId"} && f["feedId"] == JStr(feedId) && f["actorId"] == JStr(actorId)
    case FeedAnswerEvent(feedId, actorId, parentId) =>
      && f.Keys >= {"feedId", "actorId", "parentId"}
      && f["feedId"] == JStr(feedId) && f["actorId"] == JStr(actorId) && f["parentId"] == JStr(parentId)
    case FeedMentionEvent(feedId, actorId, mentionedUserId) =>
      && f.Keys >= {"feedId", "actorId", "mentionedUserId"}
      && f["feedId"] == JStr(feedId) && f["actorId"] == JStr(actorId)
      && f["mentionedUserId"] == JStr(mentionedUserId)
    case PostCommentEvent(postId, actorId) =>
      f.Keys >= {"postId", "actorId"} && f["postId"] == JStr(postId) && f["actorId"] == JStr(actorId)
    case PostAnswerEvent(postId, actorId, parentId) =>
      && f.Keys >= {"postId", "actorId", "parentId"}
      && f["postId"] == JStr(postId) && f["actorId"] == JStr(actorId) && f["parentId"] == JStr(parentId)
    case PostMentionEvent(postId, actorId, mentionedUserId) =>
      && f.Keys >= {"postId", "actorId", "mentionedUserId"}
      && f["postId"] == JStr(postId) && f["actorId"] == JStr(actorId)
      && f["mentionedUserId"] == JStr(mentionedUserId)
  }

  /** The handler's destructured argument, read from the parsed object. The
      reply kinds carry the fields of the union's answer variants. */
  function Argument(k: Kind, f: map<string, Json>): (r: Option<Event>)
    ensures r.Some? <==> WellFormed(k, f)
    ensures r.Some? ==> HandledKind(r.value) == k && Carries(f, r.value)
  {
    match k
    case FollowKind =>
      var actorId :- StringField(f, "actorId");
      var userId :- StringField(f, "userId");
      Some(FollowEvent(actorId, userId))
    case FeedLikeKind =>
      var feedId :- StringField(f, "feedId");
      var likeCount :- IntField(f, "likeCount");
      Some(FeedLikeEvent(feedId, likeCount))
    case FeedCommentKind =>
      var feedId :- StringField(f, "feedId");
      var actorId :- StringField(f, "actorId");
      Some(FeedCommentEvent(feedId, actorId))
    case FeedReplyKind =>
      var feedId :- StringField(f, "feedId");
      var actorId :- StringField(f, "actorId");
      var parentId :- StringField(f, "parentId");
      Some(FeedAnswerEvent(feedId, actorId, parentId))
    case FeedMentionKind =>
      var feedId :- StringField(f, "feedId");
      var actorId :- StringField(f, "actorId");
      var mentionedUserId :- StringField(f, "mentionedUserId");
      Some(FeedMentionEvent(feedId, actorId, mentionedUserId))
    case PostCommentKind =>
      var postId :- StringField(f, "postId");
      var actorId :- StringField(f, "actorId");
      Some(PostCommentEvent(postId, actorId))
    case PostReplyKind =>
      var postId :- StringField(f, "postId");
      var actorId :- StringField(f, "actorId");
      var parentId :- StringField(f, "parentId");
      Some(PostAnswerEvent(postId, actorId, parentId))
    case PostMentionKind =>
      var postId :- StringField(f, "postId");
      var actorId :- StringField(f, "actorId");
      var mentionedUserId :- StringField(f, "mentionedUserId");
      Some(PostMentionEvent(postId, actorId, mentionedUserId))
  }

  /** The handler an event's shape is served by. */
  function HandledKind(e: Event): Kind
  {
    match e
    case FollowEvent(_, _) => FollowKind
    case FeedLikeEvent(_, _) => FeedLikeKind
    case FeedCommentEvent(_, _) => FeedCommentKind
    case FeedAnswerEvent(_, _, _) => FeedReplyKind
    case FeedMentionEvent(_, _, _) => FeedMentionKind
    case PostCommentEvent(_, _) => PostCommentKind
    case PostAnswerEvent(_, _, _) => PostReplyKind
    case PostMentionEvent(_, _, _) => PostMentionKind
  }

  /** Run the handler an event selects. */
  function Handle(e: Event, db: Db, id: string): (r: Run<Notification>)
    ensures |r.writes| <= 1
    ensures |r.writes| == 1 ==> DataType(r.writes[0].data) == KindTag(HandledKind(e))
    ensures r.outcome.Threw? ==> r.writes == []
  {
    match e
    case FollowEvent(actorId, userId) => HandleFollow(db, actorId, userId, id)
    case FeedLikeEvent(feedId, likeCount) => HandleFeedLike(db, feedId, likeCount, id)
    case FeedCommentEvent(feedId, actorId) => HandleFeedComment(db, feedId, actorId, id)
    case FeedAnswerEvent(feedId, actorId, parentId) => HandleFeedReply(db, feedId, actorId, parentId, id)
    case FeedMentionEvent(feedId, actorId, m) => HandleFeedMention(db, feedId, actorId, m, id)
    case PostCommentEvent(postId, actorId) => HandlePostComment(db, postId, actorId, id)
    case PostAnswerEvent(postId, actorId, parentId) => HandlePostReply(db, postId, actorId, parentId, id)
    case PostMentionEvent(postId, actorId, m) => HandlePostMention(db, postId, actorId, m, id)
  }

  /** The body of the `try`: read `type` off the parsed value and run the
      matching handler. Reading a property of `null` raises, as does (in this
      model) a selected handler whose argument fields are missing or of the
      wrong JSON type; any other value without a matching string `type`
      selects nothing. */
  function TryBlock(v: Json, db: Db, id: string): (r: Run<Notification>)
    ensures |r.writes| <= 1
    ensures r.writes != [] ==> v.JObj? && "type" in v.fields && v.fields["type"] == JStr(DataType(r.writes[0].data))
  {
    match v
    case JNull => Run([], [], Threw)
    case JObj(f) =>
      if "type" in f && f["type"].JStr? && Route(f["type"].s).Some? then
        match Argument(Route(f["type"].s).value, f)
        case None => Run([], [], Threw)
        case Some(e) => Handle(e, db, id)
      else Run([], [], Completed)
    case _ => Run([], [], Completed)
  }

  /** The queue handler. `parse` stands for `JSON.parse` (None: it throws);
      `id` is the fresh identifier the selected handler would draw. Only the
      first record's body is read, the parse happens before the `try`, and
      whatever the handler raises is caught. */
  function Handler(records: seq<QueueRecord>, parse: string -> Option<Json>, db: Db, id: string): (r: Invocation)
    ensures r.Raised? <==> |records| == 0 || parse(records[0].body).None?
    ensures |records| == 0 ==> r == Raised(NoFirstRecord)
    ensures r.Returned? ==> |r.writes| <= 1
    ensures r.Returned? && r.writes != [] ==>
              var v := parse(records[0].body).value;
              v.JObj? && "type" in v.fields && v.fields["type"] == JStr(DataType(r.writes[0].data))
  {
    if |records| == 0 then Raised(NoFirstRecord)
    else match parse(records[0].body)
      case None => Raised(BodyNotJson)
      case Some(v) => Returned(TryBlock(v, db, id).writes)
  }

  // ---------------------------------------------------------------------
  // Properties of the entry point.
  // ---------------------------------------------------------------------

  /** Records after the first are never looked at. */
  lemma OnlyFirstRecordRead(records: seq<QueueRecord>, others: seq<QueueRecord>,
                            parse: string -> Option<Json>, db: Db, id: string)
    requires |records| > 0 && |others| > 0 && records[0] == others[0]
    ensures Handler(records, parse, db, id) == Handler(others, parse, db, id)
  {
  }

  /** Whatever the selected handler raises, including store errors and a
      `null` body, the invocation returns normally with the writes made. */
  lemma HandlerErrorsAreSwallowed(records: seq<QueueRecord>, parse: string -> Option<Json>, db: Db, id: string)
    requires |records| > 0 && parse(records[0].body).Some?
    ensures Handler(records, parse, db, id) == Returned(TryBlock(parse(records[0].body).value, db, id).writes)
    ensures parse(records[0].body).value == JNull ==> Handler(records, parse, db, id) == Returned([])
  {
  }

  /** A string tag outside the routed set, the union's FEED_ANSWER and
      POST_ANSWER included, and a body with no string tag at all, run no
      handler and write nothing. */
  lemma UnroutedBodiesWriteNothing(records: seq<QueueRecord>, parse: string -> Option<Json>, db: Db, id: string)
    requires |records| > 0 && parse(records[0].body).Some?
    requires var v := parse(records[0].body).value;
             v.JObj? && !("type" in v.fields && v.fields["type"].JStr? && v.fields["type"].s in RoutedTags)
    ensures Handler(records, parse, db, id) == Returned([])
  {
  }

  /** A routed tag whose argument fields are present runs exactly the handler
      that tag names: the reply tags, in particular, reach the reply handlers. */
  lemma RoutedTagRunsItsHandler(v: Json, db: Db, id: string)
    requires v.JObj? && "type" in v.fields && v.fields["type"].JStr?
    requires Route(v.fields["type"].s).Some?
    requires Argument(Route(v.fields["type"].s).value, v.fields).Some?
    ensures var e := Argument(Route(v.fields["type"].s).value, v.fields).value;
            && TryBlock(v, db, id) == Handle(e, db, id)
            && KindTag(HandledKind(e)) == v.fields["type"].s
  {
  }

  /** Self-suppression: apart from FOLLOW, no handler ever notifies the actor
      of the event. */
  lemma NoSelfNotification(e: Event, db: Db, id: string)
    requires !e.FollowEvent?
    ensures forall w :: w in Handle(e, db, id).writes ==> Actor(e) != Some(w.userId)
  {
  }

  /** The FEED_LIKE example: feed f1, subscribed author, count 5. */
  lemma FeedLikeExample(parse: string -> Option<Json>, db: Db, id: string)
    requires parse("like") == Some(JObj(map["type" := JStr("FEED_LIKE"), "feedId" := JStr("f1"), "likeCount" := JNum(5)]))
    requires "f1" in db.feeds && db.feeds["f1"].authorId == "u2"
    requires "u2" in db.users && db.users["u2"].subscription == ["FEED_LIKE"]
    requires db.failing == {} && !db.rejectsWrites
    ensures Handler([QueueRecord("like")], parse, db, id)
            == Returned([Notification(id, "u2", FeedLikeData("f1", 5, db.feeds["f1"].thumbnail, db.feeds["f1"].title))])
  {
    var f := map["type" := JStr("FEED_LIKE"), "feedId" := JStr("f1"), "likeCount" := JNum(5)];
    assert Argument(FeedLikeKind, f) == Some(FeedLikeEvent("f1", 5));
  }

  /** The FOLLOW example: u1 follows u2; one notification iff u1 exists. */
  lemma FollowExample(parse: string -> Option<Json>, db: Db, id: string)
    requires parse("follow") == Some(JObj(map["type" := JStr("FOLLOW"), "actorId" := JStr("u1"), "userId" := JStr("u2")]))
    requires db.failing == {} && !db.rejectsWrites
    ensures "u1" in db.users ==>
              Handler([QueueRecord("follow")], parse, db, id) == Returned([Notification(id, "u2", FollowData(ActorRow(db, "u1")))])
    ensures "u1" !in db.users ==> Handler([QueueRecord("follow")], parse, db, id) == Returned([])
  {
    var f := map["type" := JStr("FOLLOW"), "actorId" := JStr("u1"), "userId" := JStr("u2")];
    assert Argument(FollowKind, f) == Some(FollowEvent("u1", "u2"));
  }

  /** The POST_COMMENT example: commenting on one's own post notifies nobody. */
  lemma OwnPostCommentExample(parse: string -> Option<Json>, db: Db, id: string)
    requires parse("comment") == Some(JObj(map["type" := JStr("POST_COMMENT"), "postId" := JStr("p1"), "actorId" := JStr("u1")]))
    requires "p1" in db.posts && db.posts["p1"].authorId == "u1"
    ensures Handler([QueueRecord("comment")], parse, db, id) == Returned([])
  {
    var f := map["type" := JStr("POST_COMMENT"), "postId" := JStr("p1"), "actorId" := JStr("u1")];
    assert Argument(PostCommentKind, f) == Some(PostCommentEvent("p1", "u1"));
  }

  /** The recipient is resolved from the event's own reference: a reply's
      first query is keyed by its parent comment, a mention's by the
      mentioned user, and a follow's only query by the actor. */
  lemma RecipientQueryKeyedByEvent(e: Event, db: Db, id: string)
    ensures var qs := Handle(e, db, id).queries;
            && |qs| >= 1
            && (e.FeedAnswerEvent? ==> qs[0] == FeedCommentWithWriter(Types.Parent(e).value))
            && (e.PostAnswerEvent? ==> qs[0] == PostCommentWithWriter(Types.Parent(e).value))
            && (Types.Mentioned(e).Some? ==> qs[0] == UserById(Types.Mentioned(e).value))
            && (e.FollowEvent? ==> qs == [UserById(Actor(e).value)])
  {
  }
}

=== FILE: dynamo_item.dfy ===
/** The attribute-map encoding used by the legacy handlers' key-value store:
    string, number and boolean attributes, numbers written as the plain
    decimal string `Number.prototype.toString` yields for a non-negative
    integer below 10^21 (from 10^21 up JavaScript switches to exponent
    notation, which this encoding does not follow). */
module DynamoItem {
  import opened Wrappers

  datatype Attr = S(s: string) | N(n: string) | Bool(b: bool)

  type Item = map<string, Attr>

  /** Thirty days in seconds, the lifetime of a legacy notification. */
  const ThirtyDays: nat := 60 * 60 * 24 * 30

  /** `Math.floor(clockMs / 1000) + 60 * 60 * 24 * 30`. */
  function ExpiresAt(clockMs: nat): (r: nat)
    ensures (r - ThirtyDays) * 1000 <= clockMs < (r - ThirtyDays + 1) * 1000
    ensures r >= ThirtyDays
  {
    clockMs / 1000 + ThirtyDays
  }

  function DigitChar(d: nat): (c: char)
    requires d < 10
    ensures '0' <= c <= '9' && (c as int) - ('0' as int) == d
  {
    (('0' as int) + d) as char
  }

  predicate IsDigits(s: string)
  {
    forall i :: 0 <= i < |s| ==> '0' <= s[i] <= '9'
  }

  /** Decimal digits without leading zeros. */
  function NumberString(n: nat): (s: string)
    ensures |s| >= 1 && IsDigits(s)
    ensures s[0] == '0' ==> n == 0
    ensures s[0] == '0' ==> s == "0"
    decreases n
  {
    if n < 10 then [DigitChar(n)] else NumberString(n / 10) + [DigitChar(n % 10)]
  }

  /** The value of a digit string, most significant digit first. */
  function DigitsValue(s: string): nat
    requires IsDigits(s)
  {
    if |s| == 0 then 0
    else DigitsValue(s[..|s| - 1]) * 10 + ((s[|s| - 1] as int) - ('0' as int))
  }

  function ParseNumber(s: string): (r: Option<nat>)
    ensures r.Some? ==> IsDigits(s) && |s| >= 1
  {
    if |s| >= 1 && IsDigits(s) then Some(DigitsValue(s)) else None
  }

  lemma {:induction false} NumberStringRoundTrip(n: nat)
    ensures ParseNumber(NumberString(n)) == Some(n)
    decreases n
  {
    var s := NumberString(n);
    if n >= 10 {
      NumberStringRoundTrip(n / 10);
      var prefix := NumberString(n / 10);
      assert s == prefix + [DigitChar(n % 10)];
      assert s[..|s| - 1] == prefix;
      assert DigitsValue(prefix) == n / 10;
      assert n == n / 10 * 10 + n % 10;
      assert DigitsValue(s) == DigitsValue(prefix) * 10 + n % 10;
    }
  }

  function NumberAttr(item: Item, key: string): (r: Option<nat>)
    ensures r.Some? ==> key in item && item[key].N?
  {
    if key in item && item[key].N? then ParseNumber(item[key].n) else None
  }

  function StringAttr(item: Item, key: string): (r: Option<string>)
    ensures r.Some? <==> key in item && item[key].S?
    ensures r.Some? ==> item[key] == S(r.value)
  {
    if key in item && item[key].S? then Some(item[key].s) else None
  }

  function BoolAttr(item: Item, key: string): (r: Option<bool>)
    ensures r.Some? <==> key in item && item[key].Bool?
    ensures r.Some? ==> item[key] == Bool(r.value)
  {
    if key in item && item[key].Bool? then Some(item[key].b) else None
  }
}

=== FILE: event_handler.dfy ===
/** The current handler set of src/handler/event.handler.ts: one handler per
    event kind, each resolving a recipient, applying its guards, snapshotting
    the actor and inserting at most one structured notification. */
module EventHandler {
  import opened Wrappers
  import opened Store
  import Types

  /** The denormalised actor snapshot copied into a notification. */
  datatype ActorSnapshot = ActorSnapshot(id: string, name: string, image: Option<string>)

  /** The structured `data` column, one shape per notification type. */
  datatype Data =
    | FollowData(actor: ActorSnapshot)
    | FeedLikeData(feedId: string, likeCount: int, thumbnail: string, title: string)
    | FeedCommentData(feedId: string, actor: ActorSnapshot)
    | FeedReplyData(feedId: string, actor: ActorSnapshot)
    | FeedMentionData(feedId: string, actor: ActorSnapshot)
    | PostCommentData(postId: string, actor: ActorSnapshot)
    | PostReplyData(postId: string, actor: ActorSnapshot)
    | PostMentionData(postId: string, actor: ActorSnapshot)

  /** The `type` string stored inside `data`. */
  function DataType(d: Data): string
  {
    match d
    case FollowData(_) => "FOLLOW"
    case FeedLikeData(_, _, _, _) => "FEED_LIKE"
    case FeedCommentData(_, _) => "FEED_COMMENT"
    case FeedReplyData(_, _) => "FEED_REPLY"
    case FeedMentionData(_, _) => "FEED_MENTION"
    case PostCommentData(_, _) => "POST_COMMENT"
    case PostReplyData(_, _) => "POST_REPLY"
    case PostMentionData(_, _) => "POST_MENTION"
  }

  /** A row of the `Notification` table: fresh id, recipient, payload. */
  datatype Notification = Notification(id: string, userId: string, data: Data)

  /** The actor row as selected by `id, name, image`. */
  function ActorRow(db: Db, actorId: string): (a: ActorSnapshot)
    requires actorId in db.users
    ensures a.id == actorId
  {
    ActorSnapshot(actorId, db.users[actorId].name, db.users[actorId].image)
  }

  // ---------------------------------------------------------------------
  // Reference definitions: when each handler is meant to notify, stated on
  // the snapshot alone, independent of the order of the handler's steps.
  // ---------------------------------------------------------------------

  predicate FollowNotifies(db: Db, actorId: string)
  {
    actorId in db.users
  }

  predicate FeedLikeNotifies(db: Db, feedId: string)
  {
    && feedId in db.feeds
    && db.feeds[feedId].authorId in db.users
    && "FEED_LIKE" in db.users[db.feeds[feedId].authorId].subscription
  }

  predicate FeedCommentNotifies(db: Db, feedId: string, actorId: string)
  {
    && feedId in db.feeds
    && db.feeds[feedId].authorId in db.users
    && db.feeds[feedId].authorId != actorId
    && "FEED_COMMENT" in db.users[db.feeds[feedId].authorId].subscription
    && actorId in db.users
  }

  predicate FeedReplyNotifies(db: Db, parentId: string, actorId: string)
  {
    && parentId in db.feedComments
    && db.feedComments[parentId].writerId in db.users
    && db.feedComments[parentId].writerId != actorId
    && "FEED_REPLY" in db.users[db.feedComments[parentId].writerId].subscription
    && actorId in db.users
  }

  predicate MentionNotifies(db: Db, mentionedUserId: string, actorId: string)
  {
    && mentionedUserId in db.users
    && mentionedUserId != actorId
    && actorId in db.users
  }

  predicate PostCommentNotifies(db: Db, postId: string, actorId: string)
  {
    && postId in db.posts
    && db.posts[postId].authorId in db.users
    && db.posts[postId].authorId != actorId
    && "POST_COMMENT" in db.users[db.posts[postId].authorId].subscription
    && actorId in db.users
  }

  predicate PostReplyNotifies(db: Db, parentId: string, actorId: string)
  {
    && parentId in db.postComments
    && db.postComments[parentId].writerId in db.users
    && db.postComments[parentId].writerId != actorId
    && "POST_REPLY" in db.users[db.postComments[parentId].writerId].subscription
    && actorId in db.users
  }

  // ---------------------------------------------------------------------
  // The shared steps of the handlers.
  // ---------------------------------------------------------------------

  /** The resolved recipient passes self-suppression and, for gated kinds,
      the subscription gate. */
  predicate RecipientAccepts(db: Db, recipientId: string, flag: Option<string>, actorId: string)
  {
    && recipientId in db.users
    && recipientId != actorId
    && (flag.Some? ==> flag.value in db.users[recipientId].subscription)
  }

  /** Look the actor up and, when the row exists, insert the notification
      whose payload `payload` builds from the actor snapshot. */
  function WithActor(db: Db, before: seq<Query>, recipientId: string, actorId: string,
                     id: string, payload: ActorSnapshot -> Data): (r: Run<Notification>)
    ensures r.queries == before + [UserById(actorId)]
    ensures |r.writes| <= 1
    ensures |r.writes| == 1 <==> UserById(actorId) !in db.failing && actorId in db.users && !db.rejectsWrites
    ensures |r.writes| == 1 ==>
              r.writes[0] == Notification(id, recipientId, payload(ActorRow(db, actorId)))
    ensures r.outcome.Threw? <==>
              UserById(actorId) in db.failing || (actorId in db.users && db.rejectsWrites)
  {
    var q := UserById(actorId);
    if q in db.failing then Run(before + [q], [], Threw)
    else if actorId !in db.users then Run(before + [q], [], Completed)
    else if db.rejectsWrites then Run(before + [q], [], Threw)
    else Run(before + [q], [Notification(id, recipientId, payload(ActorRow(db, actorId)))], Completed)
  }

  /** Run the recipient query `q`, stop unless the recipient it found passes
      self-suppression and the gate `flag`, and only then go on to the actor. */
  function Gated(db: Db, q: Query, recipient: Option<string>, flag: Option<string>,
                 actorId: string, id: string, payload: ActorSnapshot -> Data): (r: Run<Notification>)
    requires recipient.Some? ==> recipient.value in db.users
    ensures 1 <= |r.queries| <= 2 && r.queries[0] == q
    ensures |r.queries| == 2 <==>
              q !in db.failing && recipient.Some? && RecipientAccepts(db, recipient.value, flag, actorId)
    ensures |r.queries| != 2 ==> r == Run([q], [], if q in db.failing then Threw else Completed)
    ensures |r.queries| == 2 ==> r == WithActor(db, [q], recipient.value, actorId, id, payload)
  {
    if q in db.failing then Run([q], [], Threw)
    else if recipient.None? || !RecipientAccepts(db, recipient.value, flag, actorId) then Run([q], [], Completed)
    else WithActor(db, [q], recipient.value, actorId, id, payload)
  }

  // ---------------------------------------------------------------------
  // The eight handlers.
  // ---------------------------------------------------------------------

  /** FOLLOW: notify `userId` about `actorId` whenever the actor row exists;
      no self-suppression and no subscription gate. */
  function HandleFollow(db: Db, actorId: string, userId: string, id: string): (r: Run<Notification>)
    ensures r.queries == [UserById(actorId)]
    ensures |r.writes| <= 1
    ensures |r.writes| == 1 <==>
              FollowNotifies(db, actorId) && UserById(actorId) !in db.failing && !db.rejectsWrites
    ensures |r.writes| == 1 ==>
              && r.writes[0].id == id
              && r.writes[0].userId == userId
              && r.writes[0].data == FollowData(ActorRow(db, actorId))
    ensures r.outcome.Threw? ==> r.writes == []
  {
    WithActor(db, [], userId, actorId, id, a => FollowData(a))
  }

  /** FEED_LIKE: notify the feed's author if subscribed to FEED_LIKE; the
      event names no actor, so there is no self check and no actor lookup. */
  function HandleFeedLike(db: Db, feedId: string, likeCount: int, id: string): (r: Run<Notification>)
    ensures r.queries == [FeedWithAuthor(feedId)]
    ensures |r.writes| <= 1
    ensures |r.writes| == 1 <==>
              FeedLikeNotifies(db, feedId) && FeedWithAuthor(feedId) !in db.failing && !db.rejectsWrites
    ensures |r.writes| == 1 ==>
              && r.writes[0].id == id
              && r.writes[0].userId == db.feeds[feedId].authorId
              && r.writes[0].data == FeedLikeData(feedId, likeCount,
                                                  db.feeds[feedId].thumbnail, db.feeds[feedId].title)
    ensures r.outcome.Threw? ==> r.writes == []
  {
    var q := FeedWithAuthor(feedId);
    var author := FeedAuthor(db, feedId);
    if q in db.failing then Run([q], [], Threw)
    else if author.None? || !Subscribed(db, author.value, "FEED_LIKE") then Run([q], [], Completed)
    else if db.rejectsWrites then Run([q], [], Threw)
    else
      var feed := db.feeds[feedId];
      Run([q], [Notification(id, author.value, FeedLikeData(feedId, likeCount, feed.thumbnail, feed.title))], Completed)
  }

  /** FEED_COMMENT: notify the feed's author, unless it is the actor or not
      subscribed to FEED_COMMENT; the actor is looked up only after that. */
  function HandleFeedComment(db: Db, feedId: string, actorId: string, id: string): (r: Run<Notification>)
    ensures 1 <= |r.queries| <= 2 && r.queries[0] == FeedWithAuthor(feedId)
    ensures |r.queries| == 2 <==>
              && FeedWithAuthor(feedId) !in db.failing
              && feedId in db.feeds
              && RecipientAccepts(db, db.feeds[feedId].authorId, Some("FEED_COMMENT"), actorId)
    ensures |r.queries| == 2 ==> r.queries[1] == UserById(actorId)
    ensures |r.queries| != 2 ==> |r.queries| == 1 && r.writes == []
    ensures |r.writes| <= 1
    ensures |r.writes| == 1 <==>
              && FeedCommentNotifies(db, feedId, actorId)
              && FeedWithAuthor(feedId) !in db.failing && UserById(actorId) !in db.failing
              && !db.rejectsWrites
    ensures |r.writes| == 1 ==>
              && r.writes[0].id == id
              && r.writes[0].userId == db.feeds[feedId].authorId
              && r.writes[0].data == FeedCommentData(feedId, ActorRow(db, actorId))
    ensures r.outcome.Threw? ==> r.writes == []
  {
    Gated(db, FeedWithAuthor(feedId), FeedAuthor(db, feedId), Some("FEED_COMMENT"),
          actorId, id, a => FeedCommentData(feedId, a))
  }

  /** FEED_REPLY: notify the writer of the parent comment `parentId` (never
      the feed's author), gated by FEED_REPLY and self-suppression. */
  function HandleFeedReply(db: Db, feedId: string, actorId: string, parentId: string, id: string): (r: Run<Notification>)
    ensures 1 <= |r.queries| <= 2 && r.queries[0] == FeedCommentWithWriter(parentId)
    ensures |r.queries| == 2 <==>
              && FeedCommentWithWriter(parentId) !in db.failing
              && parentId in db.feedComments
              && RecipientAccepts(db, db.feedComments[parentId].writerId, Some("FEED_REPLY"), actorId)
    ensures |r.queries| == 2 ==> r.queries[1] == UserById(actorId)
    ensures |r.queries| != 2 ==> |r.queries| == 1 && r.writes == []
    ensures |r.writes| <= 1
    ensures |r.writes| == 1 <==>
              && FeedReplyNotifies(db, parentId, actorId)
              && FeedCommentWithWriter(parentId) !in db.failing && UserById(actorId) !in db.failing
              && !db.rejectsWrites
    ensures |r.writes| == 1 ==>
              && r.writes[0].id == id
              && r.writes[0].userId == db.feedComments[parentId].writerId
              && r.writes[0].data == FeedReplyData(feedId, ActorRow(db, actorId))
    ensures r.outcome.Threw? ==> r.writes == []
  {
    Gated(db, FeedCommentWithWriter(parentId), FeedCommentWriter(db, parentId), Some("FEED_REPLY"),
          actorId, id, a => FeedReplyData(feedId, a))
  }

  /** FEED_MENTION: notify the mentioned user unless missing or the actor;
      the subscription is fetched but never consulted. */
  function HandleFeedMention(db: Db, feedId: string, actorId: string, mentionedUserId: string, id: string): (r: Run<Notification>)
    ensures 1 <= |r.queries| <= 2 && r.queries[0] == UserById(mentionedUserId)
    ensures |r.queries| == 2 <==>
              UserById(mentionedUserId) !in db.failing && RecipientAccepts(db, mentionedUserId, None, actorId)
    ensures |r.queries| == 2 ==> r.queries[1] == UserById(actorId)
    ensures |r.queries| != 2 ==> |r.queries| == 1 && r.writes == []
    ensures |r.writes| <= 1
    ensures |r.writes| == 1 <==>
              && MentionNotifies(db, mentionedUserId, actorId)
              && UserById(mentionedUserId) !in db.failing && UserById(actorId) !in db.failing
              && !db.rejectsWrites
    ensures |r.writes| == 1 ==>
              && r.writes[0].id == id
              && r.writes[0].userId == mentionedUserId
              && r.writes[0].data == FeedMentionData(feedId, ActorRow(db, actorId))
    ensures r.outcome.Threw? ==> r.writes == []
  {
    Gated(db, UserById(mentionedUserId), Owner(db.users, mentionedUserId), None,
          actorId, id, a => FeedMentionData(feedId, a))
  }

  /** POST_COMMENT: as FEED_COMMENT, for the post's author and POST_COMMENT. */
  function HandlePostComment(db: Db, postId: string, actorId: string, id: string): (r: Run<Notification>)
    ensures 1 <= |r.queries| <= 2 && r.queries[0] == PostWithAuthor(postId)
    ensures |r.queries| == 2 <==>
              && PostWithAuthor(postId) !in db.failing
              && postId in db.posts
              && RecipientAccepts(db, db.posts[postId].authorId, Some("POST_COMMENT"), actorId)
    ensures |r.queries| == 2 ==> r.queries[1] == UserById(actorId)
    ensures |r.queries| != 2 ==> |r.queries| == 1 && r.writes == []
    ensures |r.writes| <= 1
    ensures |r.writes| == 1 <==>
              && PostCommentNotifies(db, postId, actorId)
              && PostWithAuthor(postId) !in db.failing && UserById(actorId) !in db.failing
              && !db.rejectsWrites
    ensures |r.writes| == 1 ==>
              && r.writes[0].id == id
              && r.writes[0].userId == db.posts[postId].authorId
              && r.writes[0].data == PostCommentData(postId, ActorRow(db, actorId))
    ensures r.outcome.Threw? ==> r.writes == []
  {
    Gated(db, PostWithAuthor(postId), PostAuthor(db, postId), Some("POST_COMMENT"),
          actorId, id, a => PostCommentData(postId, a))
  }

  /** POST_REPLY: as FEED_REPLY, for post comments and POST_REPLY. */
  function HandlePostReply(db: Db, postId: string, actorId: string, parentId: string, id: string): (r: Run<Notification>)
    ensures 1 <= |r.queries| <= 2 && r.queries[0] == PostCommentWithWriter(parentId)
    ensures |r.queries| == 2 <==>
              && PostCommentWithWriter(parentId) !in db.failing
              && parentId in db.postComments
              && RecipientAccepts(db, db.postComments[parentId].writerId, Some("POST_REPLY"), actorId)
    ensures |r.queries| == 2 ==> r.queries[1] == UserById(actorId)
    ensures |r.queries| != 2 ==> |r.queries| == 1 && r.writes == []
    ensures |r.writes| <= 1
    ensures |r.writes| == 1 <==>
              && PostReplyNotifies(db, parentId, actorId)
              && PostCommentWithWriter(parentId) !in db.failing && UserById(actorId) !in db.failing
              && !db.rejectsWrites
    ensures |r.writes| == 1 ==>
              && r.writes[0].id == id
              && r.writes[0].userId == db.postComments[parentId].writerId
              && r.writes[0].data == PostReplyData(postId, ActorRow(db, actorId))
    ensures r.outcome.Threw? ==> r.writes == []
  {
    Gated(db, PostCommentWithWriter(parentId), PostCommentWriter(db, parentId), Some("POST_REPLY"),
          actorId, id, a => PostReplyData(postId, a))
  }

  /** POST_MENTION: as FEED_MENTION, with a post payload. */
  function HandlePostMention(db: Db, postId: string, actorId: string, mentionedUserId: string, id: string): (r: Run<Notification>)
    ensures 1 <= |r.queries| <= 2 && r.queries[0] == UserById(mentionedUserId)
    ensures |r.queries| == 2 <==>
              UserById(mentionedUserId) !in db.failing && RecipientAccepts(db, mentionedUserId, None, actorId)
    ensures |r.queries| == 2 ==> r.queries[1] == UserById(actorId)
    ensures |r.queries| != 2 ==> |r.queries| == 1 && r.writes == []
    ensures |r.writes| <= 1
    ensures |r.writes| == 1 <==>
              && MentionNotifies(db, mentionedUserId, actorId)
              && UserById(mentionedUserId) !in db.failing && UserById(actorId) !in db.failing
              && !db.rejectsWrites
    ensures |r.writes| == 1 ==>
              && r.writes[0].id == id
              && r.writes[0].userId == mentionedUserId
              && r.writes[0].data == PostMentionData(postId, ActorRow(db, actorId))
    ensures r.outcome.Threw? ==> r.writes == []
  {
    Gated(db, UserById(mentionedUserId), Owner(db.users, mentionedUserId), None,
          actorId, id, a => PostMentionData(postId, a))
  }

  // ---------------------------------------------------------------------
  // Properties relating several runs.
  // ---------------------------------------------------------------------

  /** The mention handlers fetch the mentioned user's subscription but never
      consult it: replacing it changes nothing about the run. */
  lemma MentionIgnoresSubscription(db: Db, targetId: string, actorId: string, mentionedUserId: string,
                                   id: string, subscription: seq<string>)
    requires mentionedUserId in db.users
    ensures var db' := db.(users := db.users[mentionedUserId := db.users[mentionedUserId].(subscription := subscription)]);
            && HandleFeedMention(db', targetId, actorId, mentionedUserId, id) == HandleFeedMention(db, targetId, actorId, mentionedUserId, id)
            && HandlePostMention(db', targetId, actorId, mentionedUserId, id) == HandlePostMention(db, targetId, actorId, mentionedUserId, id)
  {
    var db' := db.(users := db.users[mentionedUserId := db.users[mentionedUserId].(subscription := subscription)]);
    assert db'.users.Keys == db.users.Keys;
    if actorId in db.users {
      assert ActorRow(db', actorId) == ActorRow(db, actorId);
    }
  }

  /** A reply is routed by its parent comment alone: the feeds and posts,
      and so their authors, play no part in the reply handlers. */
  lemma ReplyIgnoresContentAuthor(db: Db, feeds: map<string, Feed>, posts: map<string, Post>,
                                  targetId: string, actorId: string, parentId: string, id: string)
    ensures HandleFeedReply(db.(feeds := feeds, posts := posts), targetId, actorId, parentId, id)
            == HandleFeedReply(db, targetId, actorId, parentId, id)
    ensures HandlePostReply(db.(feeds := feeds, posts := posts), targetId, actorId, parentId, id)
            == HandlePostReply(db, targetId, actorId, parentId, id)
  {
    var db' := db.(feeds := feeds, posts := posts);
    if actorId in db.users {
      assert ActorRow(db', actorId) == ActorRow(db, actorId);
    }
  }

  /** The reply handlers test for FEED_REPLY/POST_REPLY, spellings that the
      subscription vocabulary does not contain: a parent writer whose
      subscription list is drawn from the vocabulary is never notified. */
  lemma ReplyGateClosedForVocabulary(db: Db, targetId: string, actorId: string, parentId: string, id: string)
    requires parentId in db.feedComments && db.feedComments[parentId].writerId in db.users
    requires Types.InVocabulary(db.users[db.feedComments[parentId].writerId].subscription)
    ensures HandleFeedReply(db, targetId, actorId, parentId, id).writes == []
  {
  }

  lemma PostReplyGateClosedForVocabulary(db: Db, targetId: string, actorId: string, parentId: string, id: string)
    requires parentId in db.postComments && db.postComments[parentId].writerId in db.users
    requires Types.InVocabulary(db.users[db.postComments[parentId].writerId].subscription)
    ensures HandlePostReply(db, targetId, actorId, parentId, id).writes == []
  {
  }

  /** FOLLOW has no self check: a user following themself is notified. */
  lemma FollowHasNoSelfCheck(db: Db, userId: string, id: string)
    requires userId in db.users && UserById(userId) !in db.failing && !db.rejectsWrites
    ensures HandleFollow(db, userId, userId, id).writes
            == [Notification(id, userId, FollowData(ActorRow(db, userId)))]
  {
  }
}

=== FILE: follow_handler.dfy ===
/** The legacy follow handler of src/handler/follow.handler.ts, which writes a
    flat record to the key-value store. */
module FollowHandler {
  import opened Wrappers
  import opened Store
  import opened Types
  import opened DynamoItem

  /** The flat record; its `type` is always "FOLLOW" and it has no feed. */
  datatype FollowNotification = FollowNotification(
    id: string, userId: string, actorId: string, actorName: string,
    isRead: bool, createdAt: nat, expiresAt: nat)

  const FollowType: string := "FOLLOW"

  const ItemKeys: set<string> :=
    {"userId", "createdAt", "id", "type", "isRead", "actorId", "actorName", "expiresAt"}

  function Encode(n: FollowNotification): (item: Item)
    ensures item.Keys == ItemKeys
    ensures "feedId" !in item
  {
    map[
      "userId" := S(n.userId),
      "createdAt" := N(NumberString(n.createdAt)),
      "id" := S(n.id),
      "type" := S(FollowType),
      "isRead" := Bool(n.isRead),
      "actorId" := S(n.actorId),
      "actorName" := S(n.actorName),
      "expiresAt" := N(NumberString(n.expiresAt))]
  }

  function Decode(item: Item): Option<FollowNotification>
  {
    if StringAttr(item, "type") != Some(FollowType) then None
    else
      var userId :- StringAttr(item, "userId");
      var createdAt :- NumberAttr(item, "createdAt");
      var id :- StringAttr(item, "id");
      var isRead :- BoolAttr(item, "isRead");
      var actorId :- StringAttr(item, "actorId");
      var actorName :- StringAttr(item, "actorName");
      var expiresAt :- NumberAttr(item, "expiresAt");
      Some(FollowNotification(id, userId, actorId, actorName, isRead, createdAt, expiresAt))
  }

  /** Every record field survives the encoding unchanged. */
  lemma RoundTrip(n: FollowNotification)
    ensures Decode(Encode(n)) == Some(n)
  {
    NumberStringRoundTrip(n.createdAt);
    NumberStringRoundTrip(n.expiresAt);
  }

  /** Look the actor up and, if the row exists, put a notification for the
      followed user; there is no self check. `createdAt` and `expiryClock`
      are the handler's two reads of the clock, `id` its generated id. */
  function Notify(db: Db, e: Event, id: string, createdAt: nat, expiryClock: nat, putFails: bool): (r: Run<Item>)
    requires e.FollowEvent?
    ensures r.queries == [UserById(e.actorId)]
    ensures |r.writes| <= 1
    ensures |r.writes| == 1 <==> e.actorId in db.users && UserById(e.actorId) !in db.failing && !putFails
    ensures |r.writes| == 1 ==>
              r.writes[0] == Encode(FollowNotification(
                id, e.userId, e.actorId, db.users[e.actorId].name,
                false, createdAt, ExpiresAt(expiryClock)))
    ensures |r.writes| == 1 ==>
              Decode(r.writes[0]) == Some(FollowNotification(
                id, e.userId, e.actorId, db.users[e.actorId].name,
                false, createdAt, ExpiresAt(expiryClock)))
    ensures r.outcome.Threw? ==> r.writes == []
    // With no try, a failing lookup or put propagates; a missing row returns.
    ensures r.outcome.Threw? <==> UserById(e.actorId) in db.failing || (e.actorId in db.users && putFails)
  {
    var q := UserById(e.actorId);
    if q in db.failing then Run([q], [], Threw)
    else if e.actorId !in db.users then Run([q], [], Completed)
    else if putFails then Run([q], [], Threw)
    else
      var n := FollowNotification(id, e.userId, e.actorId, db.users[e.actorId].name,
                                  false, createdAt, ExpiresAt(expiryClock));
      RoundTrip(n);
      Run([q], [Encode(n)], Completed)
  }
}

=== FILE: like_handler.dfy ===
/** The legacy like handler of src/handler/like.handler.ts, which writes a flat
    record to the key-value store. As written it looks the feed and the actor
    up by the literal keys "feedId" and "actorId" rather than by the event's
    values; `NotifyIntended` is the same handler keyed by the event. */
module LikeHandler {
  import opened Wrappers
  import opened Store
  import opened DynamoItem

  /** The event the handler destructures (not declared by src/types.ts). */
  datatype LikeEvent = LikeEvent(actorId: string, feedId: string)

  /** The flat record; its `type` is always "LIKE". */
  datatype LikeNotification = LikeNotification(
    id: string, userId: string, actorId: string, actorName: string,
    isRead: bool, createdAt: nat, expiresAt: nat, feedId: string)

  const LikeType: string := "LIKE"

  const ItemKeys: set<string> :=
    {"userId", "createdAt", "id", "type", "isRead", "actorId", "actorName", "feedId", "expiresAt"}

  /** The attribute map put into the store. */
  function Encode(n: LikeNotification): (item: Item)
    ensures item.Keys == ItemKeys
  {
    map[
      "userId" := S(n.userId),
      "createdAt" := N(NumberString(n.createdAt)),
      "id" := S(n.id),
      "type" := S(LikeType),
      "isRead" := Bool(n.isRead),
      "actorId" := S(n.actorId),
      "actorName" := S(n.actorName),
      "feedId" := S(n.feedId),
      "expiresAt" := N(NumberString(n.expiresAt))]
  }

  /** Reads a record back from an attribute map, if it is one. */
  function Decode(item: Item): Option<LikeNotification>
  {
    if StringAttr(item, "type") != Some(LikeType) then None
    else
      var userId :- StringAttr(item, "userId");
      var createdAt :- NumberAttr(item, "createdAt");
      var id :- StringAttr(item, "id");
      var isRead :- BoolAttr(item, "isRead");
      var actorId :- StringAttr(item, "actorId");
      var actorName :- StringAttr(item, "actorName");
      var feedId :- StringAttr(item, "feedId");
      var expiresAt :- NumberAttr(item, "expiresAt");
      Some(LikeNotification(id, userId, actorId, actorName, isRead, createdAt, expiresAt, feedId))
  }

  /** Every record field survives the encoding unchanged. */
  lemma RoundTrip(n: LikeNotification)
    ensures Decode(Encode(n)) == Some(n)
  {
    NumberStringRoundTrip(n.createdAt);
    NumberStringRoundTrip(n.expiresAt);
  }

  /** When a like is meant to be notified, with the feed and actor rows
      found under the keys `feedKey` and `actorKey`. */
  predicate Notifies(db: Db, actorId: string, feedKey: string, actorKey: string)
  {
    && feedKey in db.feeds
    && actorId != db.feeds[feedKey].authorId
    && actorKey in db.users
  }

  /** Both lookups, then the two guards, then the put. */
  function NotifyKeyed(db: Db, e: LikeEvent, feedKey: string, actorKey: string, id: string,
                       createdAt: nat, expiryClock: nat, putFails: bool): (r: Run<Item>)
    ensures 1 <= |r.queries| <= 2 && r.queries <= [FeedById(feedKey), UserById(actorKey)]
    ensures FeedById(feedKey) !in db.failing ==> r.queries == [FeedById(feedKey), UserById(actorKey)]
    ensures |r.writes| <= 1
    ensures |r.writes| == 1 <==>
              && Notifies(db, e.actorId, feedKey, actorKey)
              && FeedById(feedKey) !in db.failing && UserById(actorKey) !in db.failing && !putFails
    ensures |r.writes| == 1 ==>
              r.writes[0] == Encode(LikeNotification(
                id, db.feeds[feedKey].authorId, e.actorId, db.users[actorKey].name,
                false, createdAt, ExpiresAt(expiryClock), e.feedId))
    ensures |r.writes| == 1 ==>
              Decode(r.writes[0]) == Some(LikeNotification(
                id, db.feeds[feedKey].authorId, e.actorId, db.users[actorKey].name,
                false, createdAt, ExpiresAt(expiryClock), e.feedId))
    ensures r.outcome.Threw? ==> r.writes == []
    // With no try, a failing lookup or put propagates; a missing row returns.
    ensures r.outcome.Threw? <==>
              || FeedById(feedKey) in db.failing || UserById(actorKey) in db.failing
              || (Notifies(db, e.actorId, feedKey, actorKey) && putFails)
  {
    var feedQuery := FeedById(feedKey);
    var actorQuery := UserById(actorKey);
    if feedQuery in db.failing then Run([feedQuery], [], Threw)
    else if actorQuery in db.failing then Run([feedQuery, actorQuery], [], Threw)
    else if feedKey !in db.feeds || e.actorId == db.feeds[feedKey].authorId then Run([feedQuery, actorQuery], [], Completed)
    else if actorKey !in db.users then Run([feedQuery, actorQuery], [], Completed)
    else if putFails then Run([feedQuery, actorQuery], [], Threw)
    else
      var n := LikeNotification(id, db.feeds[feedKey].authorId, e.actorId, db.users[actorKey].name,
                                false, createdAt, ExpiresAt(expiryClock), e.feedId);
      RoundTrip(n);
      Run([feedQuery, actorQuery], [Encode(n)], Completed)
  }

  /** The handler as written: `createdAt` and `expiryClock` are its two reads
      of the clock, `id` the generated id, and the lookups use the literal
      keys "feedId" and "actorId". */
  function Notify(db: Db, e: LikeEvent, id: string, createdAt: nat, expiryClock: nat, putFails: bool): (r: Run<Item>)
    ensures 1 <= |r.queries| <= 2 && r.queries <= [FeedById("feedId"), UserById("actorId")]
    ensures FeedById("feedId") !in db.failing ==> r.queries == [FeedById("feedId"), UserById("actorId")]
    ensures |r.writes| <= 1
    ensures |r.writes| == 1 <==>
              && Notifies(db, e.actorId, "feedId", "actorId")
              && FeedById("feedId") !in db.failing && UserById("actorId") !in db.failing && !putFails
    ensures |r.writes| == 1 ==>
              r.writes[0] == Encode(LikeNotification(
                id, db.feeds["feedId"].authorId, e.actorId, db.users["actorId"].name,
                false, createdAt, ExpiresAt(expiryClock), e.feedId))
    ensures |r.writes| == 1 ==>
              Decode(r.writes[0]) == Some(LikeNotification(
                id, db.feeds["feedId"].authorId, e.actorId, db.users["actorId"].name,
                false, createdAt, ExpiresAt(expiryClock), e.feedId))
    ensures r.outcome.Threw? ==> r.writes == []
    // With no try, a failing lookup or put propagates; a missing row returns.
    ensures r.outcome.Threw? <==>
              || FeedById("feedId") in db.failing || UserById("actorId") in db.failing
              || (Notifies(db, e.actorId, "feedId", "actorId") && putFails)
  {
    NotifyKeyed(db, e, "feedId", "actorId", id, createdAt, expiryClock, putFails)
  }

  /** The handler keyed by the event, as its authors evidently meant: the
      recipient is the author of the liked feed and the name is the actor's. */
  function NotifyIntended(db: Db, e: LikeEvent, id: string, createdAt: nat, expiryClock: nat, putFails: bool): (r: Run<Item>)
    ensures 1 <= |r.queries| <= 2 && r.queries <= [FeedById(e.feedId), UserById(e.actorId)]
    ensures FeedById(e.feedId) !in db.failing ==> r.queries == [FeedById(e.feedId), UserById(e.actorId)]
    ensures |r.writes| <= 1
    ensures |r.writes| == 1 <==>
              && Notifies(db, e.actorId, e.feedId, e.actorId)
              && FeedById(e.feedId) !in db.failing && UserById(e.actorId) !in db.failing && !putFails
    ensures |r.writes| == 1 ==>
              r.writes[0] == Encode(LikeNotification(
                id, db.feeds[e.feedId].authorId, e.actorId, db.users[e.actorId].name,
                false, createdAt, ExpiresAt(expiryClock), e.feedId))
    ensures |r.writes| == 1 ==>
              Decode(r.writes[0]) == Some(LikeNotification(
                id, db.feeds[e.feedId].authorId, e.actorId, db.users[e.actorId].name,
                false, createdAt, ExpiresAt(expiryClock), e.feedId))
    ensures r.outcome.Threw? ==> r.writes == []
    // With no try, a failing lookup or put propagates; a missing row returns.
    ensures r.outcome.Threw? <==>
              || FeedById(e.feedId) in db.failing || UserById(e.actorId) in db.failing
              || (Notifies(db, e.actorId, e.feedId, e.actorId) && putFails)
  {
    NotifyKeyed(db, e, e.feedId, e.actorId, id, createdAt, expiryClock, putFails)
  }

  /** As written, which feed was liked plays no part in whether, and to whom,
      the notification goes. */
  lemma LikedFeedIsIgnored(db: Db, actorId: string, feedA: string, feedB: string,
                           id: string, createdAt: nat, expiryClock: nat, putFails: bool)
    ensures var ra := Notify(db, LikeEvent(actorId, feedA), id, createdAt, expiryClock, putFails);
            var rb := Notify(db, LikeEvent(actorId, feedB), id, createdAt, expiryClock, putFails);
            && |ra.writes| == |rb.writes|
            && (|ra.writes| == 1 ==> ra.writes[0]["userId"] == rb.writes[0]["userId"])
  {
  }

  /** A like by u1 of u2's feed f1, both rows present: the handler as
      written notifies nobody, the intended one notifies u2. */
  lemma LiteralKeysMissTheLike(id: string, createdAt: nat, expiryClock: nat)
    ensures var db := Db(map["u1" := User("one", None, []), "u2" := User("two", None, [])],
                         map["f1" := Feed("u2", "", "")], map[], map[], map[], {}, false);
            var e := LikeEvent("u1", "f1");
            && Notify(db, e, id, createdAt, expiryClock, false).writes == []
            && |NotifyIntended(db, e, id, createdAt, expiryClock, false).writes| == 1
  {
  }
}

=== FILE: store.dfy ===
/** The relational store as one immutable snapshot. Each point query of the
    handlers becomes a map lookup; a join of content to its owner succeeds only
    when both rows exist, as an inner join does. The snapshot also says which
    queries raise and whether inserts raise, so that the store errors of the
    source can be followed through the handlers. */
module Store {
  import opened Wrappers

  /** A `User` row; its key in `Db.users` is its id. `image` is nullable. */
  datatype User = User(name: string, image: Option<string>, subscription: seq<string>)

  /** A `Feed` row with the thumbnail/title snapshot used by like notifications. */
  datatype Feed = Feed(authorId: string, thumbnail: string, title: string)

  datatype Post = Post(authorId: string)

  /** A `FeedComment` or `PostComment` row: only its writer matters here. */
  datatype Comment = Comment(writerId: string)

  /** The point queries the handlers issue, in the terms of the source. */
  datatype Query =
    | UserById(id: string)
    | FeedWithAuthor(feedId: string)            // Feed inner join User on authorId
    | PostWithAuthor(postId: string)            // Post inner join User on authorId
    | FeedCommentWithWriter(commentId: string)  // FeedComment inner join User on writerId
    | PostCommentWithWriter(commentId: string)  // PostComment inner join User on writerId
    | FeedById(feedId: string)                  // Feed alone
    | FeedCommentById(commentId: string)        // FeedComment alone

  datatype Db = Db(
    users: map<string, User>,
    feeds: map<string, Feed>,
    posts: map<string, Post>,
    feedComments: map<string, Comment>,
    postComments: map<string, Comment>,
    failing: set<Query>,
    rejectsWrites: bool)

  /** Whether a handler finished normally or an exception left it. */
  datatype Outcome = Completed | Threw

  /** What one handler invocation did: the queries it issued, in order, the
      records it wrote, in order, and how it ended. */
  datatype Run<W> = Run(queries: seq<Query>, writes: seq<W>, outcome: Outcome)

  /** The owner of a content row, present only when the join finds a user. */
  function Owner(users: map<string, User>, ownerId: string): (r: Option<string>)
    ensures r.Some? <==> ownerId in users
    ensures r.Some? ==> r.value == ownerId
  {
    if ownerId in users then Some(ownerId) else None
  }

  function FeedAuthor(db: Db, feedId: string): (r: Option<string>)
    ensures r.Some? <==> feedId in db.feeds && db.feeds[feedId].authorId in db.users
    ensures r.Some? ==> r.value == db.feeds[feedId].authorId && r.value in db.users
  {
    if feedId in db.feeds then Owner(db.users, db.feeds[feedId].authorId) else None
  }

  function PostAuthor(db: Db, postId: string): (r: Option<string>)
    ensures r.Some? <==> postId in db.posts && db.posts[postId].authorId in db.users
    ensures r.Some? ==> r.value == db.posts[postId].authorId && r.value in db.users
  {
    if postId in db.posts then Owner(db.users, db.posts[postId].authorId) else None
  }

  function FeedCommentWriter(db: Db, commentId: string): (r: Option<string>)
    ensures r.Some? <==> commentId in db.feedComments && db.feedComments[commentId].writerId in db.users
    ensures r.Some? ==> r.value == db.feedComments[commentId].writerId && r.value in db.users
  {
    if commentId in db.feedComments then Owner(db.users, db.feedComments[commentId].writerId) else None
  }

  function PostCommentWriter(db: Db, commentId: string): (r: Option<string>)
    ensures r.Some? <==> commentId in db.postComments && db.postComments[commentId].writerId in db.users
    ensures r.Some? ==> r.value == db.postComments[commentId].writerId && r.value in db.users
  {
    if commentId in db.postComments then Owner(db.users, db.postComments[commentId].writerId) else None
  }

  /** `subscription.includes(flag)` on an existing user row. */
  predicate Subscribed(db: Db, userId: string, flag: string)
    requires userId in db.users
  {
    flag in db.users[userId].subscription
  }
}

=== FILE: types.dfy ===
/** The event vocabulary declared by src/types.ts: the tagged `Event` union and
    the `SubscriptionType` preference flags. */
module Types {
  import opened Wrappers

  /** One variant per member of the `Event` union, carrying exactly the fields
      the union declares. The `type` discriminant is recovered by `Tag`. */
  datatype Event =
    | FollowEvent(actorId: string, userId: string)
    | FeedLikeEvent(feedId: string, likeCount: int)
    | FeedCommentEvent(feedId: string, actorId: string)
    | FeedAnswerEvent(feedId: string, actorId: string, parentId: string)
    | FeedMentionEvent(feedId: string, actorId: string, mentionedUserId: string)
    | PostCommentEvent(postId: string, actorId: string)
    | PostAnswerEvent(postId: string, actorId: string, parentId: string)
    | PostMentionEvent(postId: string, actorId: string, mentionedUserId: string)

  /** The string literal each variant declares for its `type` field. */
  function Tag(e: Event): string
  {
    match e
    case FollowEvent(_, _) => "FOLLOW"
    case FeedLikeEvent(_, _) => "FEED_LIKE"
    case FeedCommentEvent(_, _) => "FEED_COMMENT"
    case FeedAnswerEvent(_, _, _) => "FEED_ANSWER"
    case FeedMentionEvent(_, _, _) => "FEED_MENTION"
    case PostCommentEvent(_, _) => "POST_COMMENT"
    case PostAnswerEvent(_, _, _) => "POST_ANSWER"
    case PostMentionEvent(_, _, _) => "POST_MENTION"
  }

  const EventTags: set<string> :=
    {"FOLLOW", "FEED_LIKE", "FEED_COMMENT", "FEED_ANSWER",
     "FEED_MENTION", "POST_COMMENT", "POST_ANSWER", "POST_MENTION"}

  /** The union is closed: every event's tag is one of eight distinct strings,
      and the tag determines the variant. */
  lemma TagsAreClosedAndDistinct(e1: Event, e2: Event)
    ensures Tag(e1) in EventTags
    ensures |EventTags| == 8
    ensures Tag(e1) == Tag(e2) <==> e1.FollowEvent? == e2.FollowEvent?
                                    && e1.FeedLikeEvent? == e2.FeedLikeEvent?
                                    && e1.FeedCommentEvent? == e2.FeedCommentEvent?
                                    && e1.FeedAnswerEvent? == e2.FeedAnswerEvent?
                                    && e1.FeedMentionEvent? == e2.FeedMentionEvent?
                                    && e1.PostCommentEvent? == e2.PostCommentEvent?
                                    && e1.PostAnswerEvent? == e2.PostAnswerEvent?
                                    && e1.PostMentionEvent? == e2.PostMentionEvent?
  {
  }

  /** Who performed the action; the like event alone names nobody. */
  function Actor(e: Event): (r: Option<string>)
    ensures r.None? <==> e.FeedLikeEvent?
    ensures r.Some? ==> r.value == e.actorId
  {
    if e.FeedLikeEvent? then None else Some(e.actorId)
  }

  /** The comment being answered; only the answer variants carry one. */
  function Parent(e: Event): (r: Option<string>)
    ensures r.Some? <==> e.FeedAnswerEvent? || e.PostAnswerEvent?
    ensures r.Some? ==> r.value == e.parentId
  {
    match e
    case FeedAnswerEvent(_, _, p) => Some(p)
    case PostAnswerEvent(_, _, p) => Some(p)
    case _ => None
  }

  /** The explicitly named user; only the mention variants carry one. */
  function Mentioned(e: Event): (r: Option<string>)
    ensures r.Some? <==> e.FeedMentionEvent? || e.PostMentionEvent?
    ensures r.Some? ==> r.value == e.mentionedUserId
  {
    match e
    case FeedMentionEvent(_, _, m) => Some(m)
    case PostMentionEvent(_, _, m) => Some(m)
    case _ => None
  }

  /** The notification-preference vocabulary. */
  datatype SubscriptionType =
    | FollowSub | FeedLikeSub | FeedCommentSub | FeedAnswerSub | PostCommentSub | PostAnswerSub

  function SubscriptionTag(s: SubscriptionType): string
  {
    match s
    case FollowSub => "FOLLOW"
    case FeedLikeSub => "FEED_LIKE"
    case FeedCommentSub => "FEED_COMMENT"
    case FeedAnswerSub => "FEED_ANSWER"
    case PostCommentSub => "POST_COMMENT"
    case PostAnswerSub => "POST_ANSWER"
  }

  const SubscriptionTags: set<string> :=
    {"FOLLOW", "FEED_LIKE", "FEED_COMMENT", "FEED_ANSWER", "POST_COMMENT", "POST_ANSWER"}

  /** Six distinct flags, none of them a mention kind and none of them the
      reply spelling the handlers test for. */
  lemma SubscriptionVocabulary(s1: SubscriptionType, s2: SubscriptionType)
    ensures SubscriptionTag(s1) in SubscriptionTags
    ensures |SubscriptionTags| == 6
    ensures SubscriptionTag(s1) == SubscriptionTag(s2) <==> s1 == s2
    ensures "FEED_MENTION" !in SubscriptionTags && "POST_MENTION" !in SubscriptionTags
    ensures "FEED_REPLY" !in SubscriptionTags && "POST_REPLY" !in SubscriptionTags
  {
  }

  /** A subscription list every entry of which is drawn from the vocabulary. */
  predicate InVocabulary(subscription: seq<string>)
  {
    forall i :: 0 <= i < |subscription| ==> subscription[i] in SubscriptionTags
  }
}

=== FILE: util.dfy ===
/** The link and image-URL builders of src/util.ts. */
module Util {
  import opened Wrappers

  const ImagePrefix: string := "https://image.grimity.com"
  const ServicePrefix: string := "https://www.grimity.com"

  /** `prefix + "/" + tail`, the shape of every template in the file. */
  function Under(prefix: string, tail: string): (r: string)
    ensures |r| == |prefix| + 1 + |tail|
    ensures r[..|prefix|] == prefix && r[|prefix|] == '/' && r[|prefix| + 1..] == tail
  {
    prefix + "/" + tail
  }

  /** A stored image path as a public URL; a null or empty path (both falsy)
      has none. */
  function ImageUrl(image: Option<string>): (r: Option<string>)
    ensures r.None? <==> image.None? || image.value == ""
    ensures r.Some? ==> ImagePath(r.value) == image
  {
    if image.Some? && image.value != "" then Some(Under(ImagePrefix, image.value)) else None
  }

  /** The inverse of `ImageUrl`: the path of a URL the image host serves. */
  function ImagePath(url: string): (r: Option<string>)
    ensures r.Some? ==> r.value != "" && url == Under(ImagePrefix, r.value)
  {
    var n := |ImagePrefix| + 1;
    if |url| > n && url[..n] == ImagePrefix + "/" then Some(url[n..]) else None
  }

  function ProfileLink(url: string): (r: string)
    ensures |r| > |ServicePrefix| && r[..|ServicePrefix| + 1] == ServicePrefix + "/"
    ensures r[|ServicePrefix| + 1..] == url
  {
    Under(ServicePrefix, url)
  }

  function FeedLink(id: string): (r: string)
    ensures |r| > |ServicePrefix| && r[..|ServicePrefix| + 1] == ServicePrefix + "/"
    ensures r[|ServicePrefix| + 1..] == "feeds/" + id
  {
    Under(ServicePrefix, "feeds/" + id)
  }

  function PostLink(id: string): (r: string)
    ensures |r| > |ServicePrefix| && r[..|ServicePrefix| + 1] == ServicePrefix + "/"
    ensures r[|ServicePrefix| + 1..] == "posts/" + id
  {
    Under(ServicePrefix, "posts/" + id)
  }

  /** Distinct ids give distinct links of each kind. */
  lemma LinksAreInjective(a: string, b: string)
    ensures FeedLink(a) == FeedLink(b) <==> a == b
    ensures PostLink(a) == PostLink(b) <==> a == b
  {
    if FeedLink(a) == FeedLink(b) {
      assert ("feeds/" + a)[6..] == a && ("feeds/" + b)[6..] == b;
    }
    if PostLink(a) == PostLink(b) {
      assert ("posts/" + a)[6..] == a && ("posts/" + b)[6..] == b;
    }
  }

  /** A feed link is never a post link, whatever the two ids. */
  lemma FeedAndPostLinksDiffer(a: string, b: string)
    ensures FeedLink(a) != PostLink(b)
  {
    var k := |ServicePrefix| + 1;
    assert FeedLink(a)[k] == ("feeds/" + a)[0] == 'f';
    assert PostLink(b)[k] == ("posts/" + b)[0] == 'p';
  }

  /** Profile links live in the same namespace: the profile url "feeds/<id>"
      yields exactly the feed link of <id>. */
  lemma ProfileLinkCanShadowFeedLink(id: string)
    ensures ProfileLink("feeds/" + id) == FeedLink(id)
  {
  }
}

=== FILE: wrappers.dfy ===
/** Optional values: the model's stand-in for JavaScript's `undefined`/`null`
    and for a query that returned no row. */
module Wrappers {

  datatype Option<+T> = None | Some(value: T) {

    /** Lets `:-` stop at the first missing value. */
    predicate IsFailure() {
      None?
    }

    function PropagateFailure<U>(): Option<U>
      requires None?
    {
      None
    }

    function Extract(): T
      requires Some?
    {
      value
    }
  }
}
